=== FILE: README.md ===
# Mystery Number: the guessing-game state machine

The application is a single React component, `App` in `src/App.tsx`, that
hides a number between 1 and 100 and answers each guess with "too low",
"too high" or "correct". This project models its logic in Dafny:

- the four pieces of component state (`targetNumber`, `guess`, `message`,
  `attempts`) as the immutable record `GuessingGame.Game`, with the message
  as the outcome type `Messages.Msg`;
- the three event handlers as pure transitions: `InputChange`
  (`handleInputChange`), `Submit` (`handleGuess`) and `Reset`
  (`handleReset`), plus `Mount` for the effect that draws the first target;
- JavaScript's `parseInt(text, 10)` (section 19.2.5 of ECMA-262), which
  `handleGuess` uses to read the pending text, as the prefix parser
  `JsParseInt.ParseInt`, together with an independent loop implementation
  `JsParseInt.ParseIntScan`;
- the exact message strings (`Messages.Render`), the decimal text of the
  attempt count inside the correct message (`NumberText.NatToDecimal`), and
  the styling flag `message.includes('Correct')` (`Messages.CorrectStyle`).

Files: `wrappers.dfy` (Option), `parse_int.dfy` (module `JsParseInt`),
`number_text.dfy` (module `NumberText`), `messages.dfy` (module `Messages`),
`game.dfy` (module `GuessingGame`), `scenarios.dfy` (module `Scenarios`:
concrete inputs and a full play-through).

`parseInt` reads the longest digit prefix, so "12.5.3" is the guess 12
(`Scenarios.ParseIntDecimalPointExample`), and a long digit string never
gives NaN.

The target is never drawn inside the model. Each handler that draws one
(`Mount`, `Reset`) takes it as a parameter `t` with `1 <= t <= 100`. That is
the range `Math.floor(Math.random() * 100) + 1` produces.

## Model

| member | source | states |
|---|---|---|
| `JsParseInt.ParseInt` | src/App.tsx:100 | `parseInt(guess, 10)`, with `None` for NaN. It has no ensures of its own; it is characterised by `ParseIntOfShape`, `ParseIntDecompose` and `ParseIntNaN` below, and cross-checked against the loop `ParseIntScan`. |
| `JsParseInt.ParseIntOfShape` | src/App.tsx:100 | Any text made of white space, an optional sign, a non-empty digit run and then anything not starting with a digit parses to the signed value of that digit run. Trailing text such as "abc" or ".5" is ignored. |
| `JsParseInt.ParseIntDecompose` | src/App.tsx:100 | Conversely, every text that parses splits into white space, sign, a maximal digit run and a rest, and its value is the signed value of that run. Together with `ParseIntOfShape`: parsing succeeds exactly for texts of that shape. |
| `JsParseInt.ParseIntNaN` | src/App.tsx:100-104 | When no digit follows the leading white space and the optional sign (including the empty text), the result is NaN (`None`). |
| `JsParseInt.TrimStartOf` | src/App.tsx:100 | White space before a non-white-space character is removed exactly, no more and no less. |
| `JsParseInt.TrimStartSplit` | src/App.tsx:100 | Every text is white space followed by its trimmed part, and the trimmed part does not begin with white space. |
| `JsParseInt.DigitPrefixSplit` | src/App.tsx:100 | Every text is its digit run followed by a part that does not begin with a digit. |
| `JsParseInt.DigitPrefixOf` | src/App.tsx:100 | The digit run is read up to the first non-digit and no further. |
| `JsParseInt.SkipWhitespace` | src/App.tsx:100 | The whitespace-skipping loop stops at the index where the trimmed text begins. |
| `JsParseInt.ReadDigits` | src/App.tsx:100 | The digit loop stops at the end of the longest digit run and accumulates that run's decimal value. |
| `JsParseInt.ParseIntScan` | src/App.tsx:100 | The loop form of the algorithm (trim, read sign, accumulate digits) returns the same result as the functional definition for every text. |
| `NumberText.NatToDecimal` | src/App.tsx:111 | The count written into the correct message is a non-empty digit string with no leading zero. |
| `NumberText.DecimalValue` | src/App.tsx:111 | The decimal text of a count denotes that count. |
| `NumberText.ParseIntOfNumeral` | src/App.tsx:100 | `parseInt` reads the decimal text of a count back as that count, whatever non-digit text follows. |
| `NumberText.ParseIntOfNegated` | src/App.tsx:100 | `parseInt` reads a minus sign followed by a count's decimal text as the negated count; "-0" reads as 0. |
| `NumberText.ParseIntOfDecimal` | src/App.tsx:100 | Round trip: `parseInt` of any integer's decimal text, with a minus sign when negative, is that integer. |
| `NumberText.NatToDecimalInjective` | src/App.tsx:111 | Different counts have different decimal texts. |
| `Messages.Render` | src/App.tsx:102-119 | The text the component stores for each outcome; it is empty exactly for the `Empty` outcome, which only the initial state and `Reset` hold, since `GuessingGame.Submit` never leaves the message empty. Its texts are characterised by `RenderInjective`, `CapitalCOnlyInCorrect` and `CorrectMessageCount`. |
| `Messages.CorrectStyle` | src/App.tsx:138 | `message.includes('Correct')`. It has no ensures of its own; `CorrectStyleOfRender` and `GuessingGame.SubmitCorrectStyle` state when it holds. |
| `Messages.CapitalCOnlyInCorrect` | src/App.tsx:102-111 | Of the five message texts, only the correct message contains a capital C. |
| `Messages.CorrectStyleOfRender` | src/App.tsx:138 | The styling flag `message.includes('Correct')` is on exactly when the message is the correct message. |
| `Messages.CorrectMessageCount` | src/App.tsx:111 | The number after "Correct! You guessed it in " reads back as the count the outcome carries. |
| `Messages.RenderInjective` | src/App.tsx:102-111 | Different outcomes show different texts, so the text determines the outcome. |
| `GuessingGame.Initial` | src/App.tsx:86-89 | The `useState` initial values: empty text, no message, no attempts. This state is consistent but not valid, because its target 0 is outside [1, 100]. |
| `GuessingGame.Mount` | src/App.tsx:91-93 | The mount effect sets the target to the drawn number t, which lies in [1, 100], and changes nothing else; a consistent initial state becomes a valid game. |
| `GuessingGame.InputChange` | src/App.tsx:95-97 | The pending text becomes the typed text verbatim; target, message and counter are unchanged; validity is kept. |
| `GuessingGame.Judge` | src/App.tsx:106-112 | Exactly one outcome per guess: too low if and only if the guess is below the target, too high if and only if above, correct if and only if equal. The correct outcome carries the given count. |
| `GuessingGame.Submit` | src/App.tsx:99-114 | When `parseInt` gives NaN, only the message changes, to the invalid message. Otherwise the counter rises by exactly one and the pending text is cleared. Each outcome holds if and only if its comparison with the target holds. The correct message reports the incremented count. The message is never left empty. The target never changes, and validity is kept. |
| `GuessingGame.Reset` | src/App.tsx:116-121 | Afterwards the target is the drawn number t in [1, 100], the counter is 0, the pending text and the message are empty, and the game is valid. |
| `GuessingGame.Step` | src/App.tsx:91-121 | One event dispatched to its handler. Mount and reset set the target to the drawn number, and reset zeroes the counter. Typing and submitting keep the target and never lower the counter. Validity is stated by `StepPreservesValid`. |
| `GuessingGame.Run` | src/App.tsx:86-121 | Events handled one at a time, in order. It has no ensures of its own; `RunPreservesValid` and `SessionKeepsTarget` state what every run keeps. |
| `GuessingGame.StepPreservesValid` | src/App.tsx:91-121 | Every handler keeps a mounted game valid: target in range, the message empty only while no guess has counted, no comparison message (too low, too high, correct) before the first counted guess, and the correct message reporting the counter. The invalid message may appear with any counter, including 0. |
| `GuessingGame.RunPreservesValid` | src/App.tsx:86-121 | Any sequence of events from a valid game ends in a valid game. |
| `GuessingGame.StepPreservesConsistent` | src/App.tsx:91-121 | Every handler keeps the message consistent with the counter, also before the mount effect has run, when a submit compares against the target 0. |
| `GuessingGame.RunPreservesConsistent` | src/App.tsx:86-121 | Any sequence of events from a consistent state, the initial `useState` values included, ends in a consistent state. With `RunPreservesValid` this covers every reachable state, mounted or not. |
| `GuessingGame.RunAppend` | src/App.tsx:91-121 | Handling one sequence of events and then another ends in the same state as handling their concatenation, so play-throughs compose. |
| `GuessingGame.InitialThenMountIsValid` | src/App.tsx:86-93 | The initial `useState` values are consistent, and mounting makes them a valid game. |
| `GuessingGame.SessionKeepsTarget` | src/App.tsx:95-114 | Between draws of the target (the mount or a reset), typing and submitting never change the target and never lower the counter. |
| `GuessingGame.SubmitFeedbackText` | src/App.tsx:106-112 | After a parsed guess the shown text is "Too low! Try again." if and only if the guess is below the target, and "Too high! Try again." if and only if above. It is "Correct! You guessed it in n attempts.", with n the incremented count, if and only if the guess equals the target. |
| `GuessingGame.SubmitCorrectStyle` | src/App.tsx:99-138 | After a submit the styling flag is on exactly when the text parsed to the target. |
| `GuessingGame.OutOfRangeGuessIsCompared` | src/App.tsx:105-112 | A parsed guess outside [1, 100] is not rejected. It counts as an attempt and is reported as too low (below 1) or too high (above 100). |
| `GuessingGame.InputChangeIdempotent` | src/App.tsx:95-97 | Typing the same text twice leaves the same state as typing it once. |
| `Scenarios.ParseIntTrailingExample` | src/App.tsx:100 | "12abc" is the guess 12. |
| `Scenarios.ParseIntDecimalPointExample` | src/App.tsx:100 | "12.5.3" is the guess 12, not an invalid input. |
| `Scenarios.ParseIntPrefixLetterExamples` | src/App.tsx:100 | With radix 10, "0x1A" is 0 and "1e3" is 1. |
| `Scenarios.ParseIntSignedExample` | src/App.tsx:100 | " \t-7px" is the guess -7. |
| `Scenarios.ParseIntNaNExamples` | src/App.tsx:100-104 | "", "abc", "-" and "+-3" are invalid. |
| `Scenarios.TypeAndSubmit` | src/App.tsx:95-114 | Typing a count's decimal text and then submitting it is a submit of that text, and the text parses to the count. |
| `Scenarios.PlayThroughFirstGuess` | src/App.tsx:99-121 | From any state, a reset to target 42 and then the guess 10 give "too low" and one attempt. |
| `Scenarios.PlayThroughSecondGuess` | src/App.tsx:99-114 | The guess 70 then gives "too high" and two attempts. |
| `Scenarios.PlayThroughThirdGuess` | src/App.tsx:99-114 | The guess 42 then gives the correct message for three attempts. |
| `Scenarios.PlayThrough` | src/App.tsx:95-121 | From any state, a reset to 42 and the guesses 10, 70 and 42 as one run end with the correct message for three attempts, an empty pending text and the counter at 3. |
| `Scenarios.CorrectTextExample` | src/App.tsx:111 | The correct message for three attempts reads "Correct! You guessed it in 3 attempts.". |

## Left out

- Styled components, JSX rendering and React hook mechanics (src/App.tsx:1-84, 123-147): these are presentation only. The message paragraph's colour appears only as the styling flag.
- `Math.random()` and `Math.floor` (src/App.tsx:92, 117): floating-point randomness is not modelled. The drawn target is a caller-supplied parameter in [1, 100]; the model proves nothing about its distribution.
- The mount timing: the initial state `GuessingGame.Initial` has target 0, as the `useState(0)` of src/App.tsx:86 gives. A submit before `Mount` compares against 0. `Valid` covers only mounted games.
- `JsParseInt.ParseInt` works on unbounded integers. It does not model IEEE-754 precision loss or `Infinity` for very long digit strings.
- `JsParseInt.ParseInt`: "-0" yields the integer 0 where JavaScript yields negative zero. Every comparison with the target gives the same result.
- `JsParseInt.ParseInt` handles only radix 10; other radices and the "0x" prefix rule for radix 16 are not used by the component.
- `JsParseInt.ParseInt` reads Dafny characters (Unicode scalar values) where JavaScript reads UTF-16 code units. Every white-space and digit character lies in the Basic Multilingual Plane, so the result is the same for every text a Dafny string can hold. Lone surrogates cannot be represented.
- `NumberText.NatToDecimal`: JavaScript switches to exponent notation at 10^21, which this function never does; no count in a game comes near.
- Browser sanitisation of the `type="number"` field and its `min`/`max` hints (src/App.tsx:129-132) are browser behaviour, outside this code. The model accepts any text as the pending guess.
- React state batching and stale closures: each event is handled to completion on the state the previous event left, as one synchronous dispatch per event.

=== FILE: game.dfy ===
/**
 The guessing-game state machine of the `App` component: four pieces of
 state (target, pending text, message, attempt count) and the three event
 handlers that change them — input change, submit and reset — plus the
 mount effect that draws the first target.

 Randomness is not modelled: every target the component would draw with
 `Math.floor(Math.random() * 100) + 1` is passed in by the caller, who
 promises it lies in [1, 100], the range that expression yields.
 */
module GuessingGame {
  import opened Wrappers
  import opened JsParseInt
  import opened NumberText
  import opened Messages

  /** The component's state: `targetNumber`, `guess`, `message`, `attempts`. */
  datatype Game = Game(target: int, guess: string, message: Msg, attempts: nat)

  /** The targets `Math.floor(Math.random() * 100) + 1` can produce. */
  predicate InRange(t: int) {
    1 <= t <= 100
  }

  /** The state before the mount effect runs: every `useState` initial value.
      It is consistent, but its target is still 0, outside the drawable range. */
  function Initial(): (g: Game)
    ensures g.guess == "" && g.message == Empty && g.attempts == 0
    ensures Consistent(g) && !Valid(g)
  {
    Game(0, "", Empty, 0)
  }

  /** How the message and the counter fit together in every reachable state:
      the message is empty only while no guess has counted, no comparison
      message (too low, too high, correct) appears before the first counted
      guess, and the correct message reports the counter. The invalid
      message may appear with any counter, including 0. */
  predicate Consistent(g: Game) {
    && (g.message.Empty? ==> g.attempts == 0)
    && (g.message.TooLow? || g.message.TooHigh? || g.message.Correct? ==> g.attempts >= 1)
    && (g.message.Correct? ==> g.message.count == g.attempts)
  }

  /** A mounted game: a drawn target and a consistent message. */
  predicate Valid(g: Game) {
    InRange(g.target) && Consistent(g)
  }

  /** The mount effect: only the target is set. */
  function Mount(g: Game, t: int): (g': Game)
    requires InRange(t)
    ensures g'.target == t
    ensures g'.guess == g.guess && g'.message == g.message && g'.attempts == g.attempts
    ensures Consistent(g) ==> Valid(g')
  {
    g.(target := t)
  }

  /** `handleInputChange`: the pending text becomes the field's text,
      verbatim; nothing else changes. */
  function InputChange(g: Game, text: string): (g': Game)
    ensures g'.guess == text
    ensures g'.target == g.target && g'.message == g.message && g'.attempts == g.attempts
    ensures Valid(g) ==> Valid(g')
  {
    g.(guess := text)
  }

  /** The outcome of comparing a parsed guess with the target; `count` is the
      attempt count the correct message reports. */
  function Judge(guess: int, target: int, count: nat): (m: Msg)
    ensures m == TooLow <==> guess < target
    ensures m == TooHigh <==> guess > target
    ensures m.Correct? <==> guess == target
    ensures m.Correct? ==> m.count == count
  {
    if guess < target then TooLow
    else if guess > target then TooHigh
    else Correct(count)
  }

  /** `handleGuess`. A pending text that `parseInt` rejects sets the invalid
      message and returns early; any other text counts one attempt, is
      compared with the target (with no range check of its own) and is
      cleared. */
  function Submit(g: Game): (g': Game)
    ensures g'.target == g.target
    ensures ParseInt(g.guess).None? ==> g' == g.(message := Invalid)
    ensures ParseInt(g.guess).Some? ==> g'.attempts == g.attempts + 1 && g'.guess == ""
    ensures g'.message == Invalid <==> ParseInt(g.guess).None?
    ensures g'.message == TooLow <==> ParseInt(g.guess).Some? && ParseInt(g.guess).value < g.target
    ensures g'.message == TooHigh <==> ParseInt(g.guess).Some? && ParseInt(g.guess).value > g.target
    ensures g'.message.Correct? <==> ParseInt(g.guess) == Some(g.target)
    ensures g'.message.Correct? ==> g'.message.count == g.attempts + 1
    ensures !g'.message.Empty?
    ensures Valid(g) ==> Valid(g')
  {
    match ParseInt(g.guess)
    case None => g.(message := Invalid)
    case Some(n) =>
      var attempts := g.attempts + 1;
      g.(attempts := attempts, message := Judge(n, g.target, attempts), guess := "")
  }

  /** `handleReset`: a new target, and counter, text and message cleared. */
  function Reset(g: Game, t: int): (g': Game)
    requires InRange(t)
    ensures g'.target == t
    ensures g'.attempts == 0 && g'.guess == "" && g'.message == Empty
    ensures Valid(g')
  {
    Game(t, "", Empty, 0)
  }

  /** A user action, or the mount effect. */
  datatype Event = Mounted(drawn: int) | Typed(text: string) | Guessed | ResetTo(next: int)

  /** The target the event draws, if it draws one, lies in [1, 100]. */
  predicate DrawsInRange(e: Event) {
    && (e.Mounted? ==> InRange(e.drawn))
    && (e.ResetTo? ==> InRange(e.next))
  }

  /** Every target the events draw lies in [1, 100]. */
  predicate Drawable(es: seq<Event>) {
    forall i :: 0 <= i < |es| ==> DrawsInRange(es[i])
  }

  /** One event, handled to completion. */
  function Step(g: Game, e: Event): (g': Game)
    requires DrawsInRange(e)
    ensures e.Mounted? ==> g'.target == e.drawn
    ensures e.ResetTo? ==> g'.target == e.next && g'.attempts == 0
    ensures InSession(e) ==> g'.target == g.target && g'.attempts >= g.attempts
  {
    match e
    case Mounted(t) => Mount(g, t)
    case Typed(text) => InputChange(g, text)
    case Guessed => Submit(g)
    case ResetTo(t) => Reset(g, t)
  }

  /** A sequence of events handled one at a time, in order. */
  function Run(g: Game, es: seq<Event>): Game
    requires Drawable(es)
    decreases |es|
  {
    if es == [] then g else Run(Step(g, es[0]), es[1..])
  }

  /** Every event keeps a mounted game valid. */
  lemma StepPreservesValid(g: Game, e: Event)
    requires Valid(g) && DrawsInRange(e)
    ensures Valid(Step(g, e))
  {
  }

  /** Every run from a mounted game keeps it valid. */
  lemma {:induction false} RunPreservesValid(g: Game, es: seq<Event>)
    requires Valid(g) && Drawable(es)
    ensures Valid(Run(g, es))
    decreases |es|
  {
    if es != [] {
      StepPreservesValid(g, es[0]);
      RunPreservesValid(Step(g, es[0]), es[1..]);
    }
  }

  /** Every event keeps the message consistent with the counter, mounted or
      not: a submit before the mount compares against the target 0. */
  lemma StepPreservesConsistent(g: Game, e: Event)
    requires Consistent(g) && DrawsInRange(e)
    ensures Consistent(Step(g, e))
  {
  }

  /** Every run, from the initial state or any other consistent one, keeps
      the message consistent with the counter. */
  lemma {:induction false} RunPreservesConsistent(g: Game, es: seq<Event>)
    requires Consistent(g) && Drawable(es)
    ensures Consistent(Run(g, es))
    decreases |es|
  {
    if es != [] {
      StepPreservesConsistent(g, es[0]);
      RunPreservesConsistent(Step(g, es[0]), es[1..]);
    }
  }

  /** Handling `a` and then `b` is handling `a + b`. */
  lemma {:induction false} RunAppend(g: Game, a: seq<Event>, b: seq<Event>)
    requires Drawable(a) && Drawable(b)
    ensures Drawable(a + b)
    ensures Run(g, a + b) == Run(Run(g, a), b)
    decreases |a|
  {
    assert Drawable(a + b) by {
      forall i | 0 <= i < |a + b|
        ensures DrawsInRange((a + b)[i])
      {
        if i < |a| {
          assert (a + b)[i] == a[i];
        } else {
          assert (a + b)[i] == b[i - |a|];
        }
      }
    }
    if a == [] {
      assert a + b == b;
    } else {
      assert (a + b)[0] == a[0];
      assert (a + b)[1..] == a[1..] + b;
      RunAppend(Step(g, a[0]), a[1..], b);
    }
  }

  /** The initial state is consistent, and the mount effect makes it valid. */
  lemma InitialThenMountIsValid(t: int)
    requires InRange(t)
    ensures Consistent(Initial())
    ensures Valid(Mount(Initial(), t))
  {
  }

  /** Whether an event belongs to the session it is dispatched in: reset and
      mount both draw a new target and so start a new session. */
  predicate InSession(e: Event) {
    e.Typed? || e.Guessed?
  }

  /** Within one session the target never changes and the counter never
      goes down. */
  lemma {:induction false} SessionKeepsTarget(g: Game, es: seq<Event>)
    requires Drawable(es)
    requires forall i :: 0 <= i < |es| ==> InSession(es[i])
    ensures Run(g, es).target == g.target
    ensures Run(g, es).attempts >= g.attempts
    decreases |es|
  {
    if es != [] {
      assert InSession(es[0]);
      SessionKeepsTarget(Step(g, es[0]), es[1..]);
    }
  }

  /** The text each parsed submit shows: exactly one of the three feedback
      strings, chosen by comparing the guess with the target. */
  lemma SubmitFeedbackText(g: Game, v: int)
    requires ParseInt(g.guess) == Some(v)
    ensures Render(Submit(g).message) == TooLowText <==> v < g.target
    ensures Render(Submit(g).message) == TooHighText <==> v > g.target
    ensures Render(Submit(g).message) == CorrectPrefix + NatToDecimal(g.attempts + 1) + CorrectSuffix
            <==> v == g.target
  {
    var m := Submit(g).message;
    if Render(m) == TooLowText {
      RenderInjective(m, TooLow);
    }
    if Render(m) == TooHighText {
      RenderInjective(m, TooHigh);
    }
    if Render(m) == Render(Correct(g.attempts + 1)) {
      RenderInjective(m, Correct(g.attempts + 1));
    }
  }

  /** The styling flag after a submit is on exactly when the submitted text
      parsed to the target. */
  lemma SubmitCorrectStyle(g: Game)
    ensures CorrectStyle(Render(Submit(g).message)) <==> ParseInt(g.guess) == Some(g.target)
  {
    CorrectStyleOfRender(Submit(g).message);
  }

  /** Guesses outside [1, 100] are not rejected: they count as an attempt
      and are reported as too low or too high. */
  lemma OutOfRangeGuessIsCompared(g: Game, v: int)
    requires InRange(g.target)
    requires ParseInt(g.guess) == Some(v) && !InRange(v)
    ensures Submit(g).attempts == g.attempts + 1
    ensures Submit(g).message == if v < 1 then TooLow else TooHigh
  {
  }

  /** Typing the same text twice is the same as typing it once. */
  lemma InputChangeIdempotent(g: Game, text: string)
    ensures InputChange(InputChange(g, text), text) == InputChange(g, text)
  {
  }
}

=== FILE: messages.dfy ===
/**
 The feedback shown under the guess field: which outcome the last submit had,
 the exact text the component displays for it, and the "correct" styling cue
 that the component derives from that text.
 */
module Messages {
  import opened Wrappers
  import opened JsParseInt
  import opened NumberText

  /** The last outcome shown. `Correct(n)` carries the attempt count it reports. */
  datatype Msg = Empty | Invalid | TooLow | TooHigh | Correct(count: nat)

  const InvalidText := "Please enter a valid number."
  const TooLowText := "Too low! Try again."
  const TooHighText := "Too high! Try again."
  const CorrectPrefix := "Correct! You guessed it in "
  const CorrectSuffix := " attempts."

  /** The message string the component holds for each outcome. */
  function Render(m: Msg): (text: string)
    ensures text == "" <==> m.Empty?
  {
    match m
    case Empty => ""
    case Invalid => InvalidText
    case TooLow => TooLowText
    case TooHigh => TooHighText
    case Correct(n) => CorrectPrefix + NatToDecimal(n) + CorrectSuffix
  }

  /** `sub` occurs in `s` starting at index `i`. */
  predicate OccursAt(s: string, sub: string, i: int) {
    0 <= i <= |s| - |sub| && s[i..i + |sub|] == sub
  }

  /** `s.includes(sub)` of JavaScript: `sub` occurs somewhere in `s`. */
  predicate Contains(s: string, sub: string) {
    exists i :: 0 <= i <= |s| - |sub| && OccursAt(s, sub, i)
  }

  /** The styling flag of the message paragraph: the text mentions "Correct". */
  predicate CorrectStyle(text: string) {
    Contains(text, "Correct")
  }

  /** No character of `s` is `c`. */
  predicate Lacks(s: string, c: char) {
    forall i :: 0 <= i < |s| ==> s[i] != c
  }

  lemma ContainsNeedsFirst(s: string, sub: string)
    requires |sub| > 0 && Contains(s, sub)
    ensures !Lacks(s, sub[0])
  {
    var i :| 0 <= i <= |s| - |sub| && OccursAt(s, sub, i);
    assert s[i..i + |sub|] == sub;
    assert s[i] == sub[0];
  }

  /** Only the correct message has a capital C in it. */
  lemma CapitalCOnlyInCorrect(m: Msg)
    ensures Lacks(Render(m), 'C') <==> !m.Correct?
  {
    if m.Correct? {
      assert Render(m)[0] == 'C';
    }
  }

  /** The styling flag is on exactly for the correct outcome: no other
      message text contains "Correct". */
  lemma CorrectStyleOfRender(m: Msg)
    ensures CorrectStyle(Render(m)) <==> m.Correct?
  {
    var s := Render(m);
    CapitalCOnlyInCorrect(m);
    if m.Correct? {
      assert OccursAt(s, "Correct", 0);
    } else if CorrectStyle(s) {
      ContainsNeedsFirst(s, "Correct");
    }
  }

  /** The count in the correct message reads back, with `parseInt`, as the
      count the outcome carries. */
  lemma CorrectMessageCount(n: nat)
    ensures ParseInt(Render(Correct(n))[|CorrectPrefix|..]) == Some(n)
  {
    var d := NatToDecimal(n);
    assert Render(Correct(n))[|CorrectPrefix|..] == d + CorrectSuffix;
    ParseIntOfNumeral(n, CorrectSuffix);
  }

  /** Distinct outcomes show distinct texts. */
  lemma RenderInjective(a: Msg, b: Msg)
    requires Render(a) == Render(b)
    ensures a == b
  {
    CapitalCOnlyInCorrect(a);
    CapitalCOnlyInCorrect(b);
    if a.Correct? {
      var x, y := a.count, b.count;
      var dx, dy := NatToDecimal(x), NatToDecimal(y);
      var p := |CorrectPrefix|;
      assert |dx| == |dy|;
      assert Render(a)[p..p + |dx|] == dx;
      assert Render(b)[p..p + |dy|] == dy;
      NatToDecimalInjective(x, y);
    }
  }
}

=== FILE: number_text.dfy ===
/**
 Decimal text of non-negative integers, as JavaScript's Number-to-String
 conversion writes an integer attempt count into the template literal of the
 "correct" message, and the fact that `parseInt` reads that text back.
 */
module NumberText {
  import opened Wrappers
  import opened JsParseInt

  function DigitChar(d: nat): (c: char)
    requires d < 10
    ensures IsDigit(c) && DigitValue(c) == d
  {
    '0' + d as char
  }

  /** The shortest decimal numeral of `n`: digits only, no leading zero. */
  function NatToDecimal(n: nat): (s: string)
    ensures |s| > 0 && AllDigits(s)
    ensures |s| > 1 ==> s[0] != '0'
    decreases n
  {
    if n < 10 then [DigitChar(n)] else NatToDecimal(n / 10) + [DigitChar(n % 10)]
  }

  /** A signed integer's numeral: a minus sign before the magnitude when negative. */
  function IntToDecimal(i: int): string {
    if i < 0 then "-" + NatToDecimal(-i) else NatToDecimal(i)
  }

  /** The numeral of `n` denotes `n`. */
  lemma {:induction false} DecimalValue(n: nat)
    ensures DigitsValue(NatToDecimal(n)) == n
  {
    if n >= 10 {
      var s := NatToDecimal(n);
      assert s[..|s| - 1] == NatToDecimal(n / 10);
      DecimalValue(n / 10);
    }
  }

  /** `parseInt` reads a numeral back, whatever non-digit text follows it. */
  lemma ParseIntOfNumeral(n: nat, rest: string)
    requires rest == [] || !IsDigit(rest[0])
    ensures ParseInt(NatToDecimal(n) + rest) == Some(n)
  {
    var d := NatToDecimal(n);
    DecimalValue(n);
    ParseIntOfShape("", "", d, rest);
    Concat4("", "", d, rest);
    assert "" + ("" + (d + rest)) == d + rest;
  }

  /** `parseInt` reads a minus sign and a numeral back as the negated count
      ("-0" included, which reads as 0). */
  lemma ParseIntOfNegated(n: nat)
    ensures ParseInt("-" + NatToDecimal(n)) == Some(-(n as int))
  {
    var d := NatToDecimal(n);
    DecimalValue(n);
    ParseIntOfShape("", "-", d, "");
    assert "" + "-" + d + "" == "-" + d;
  }

  /** Round trip: `parseInt` of an integer's numeral is that integer. */
  lemma ParseIntOfDecimal(i: int)
    ensures ParseInt(IntToDecimal(i)) == Some(i)
  {
    if i < 0 {
      ParseIntOfNegated(-i);
    } else {
      ParseIntOfNumeral(i, "");
      assert NatToDecimal(i) + "" == NatToDecimal(i);
    }
  }

  /** Distinct counts have distinct numerals. */
  lemma NatToDecimalInjective(a: nat, b: nat)
    requires NatToDecimal(a) == NatToDecimal(b)
    ensures a == b
  {
    DecimalValue(a);
    DecimalValue(b);
  }
}

=== FILE: parse_int.dfy ===
/**
 The global `parseInt(string, 10)` of JavaScript, as defined in section 19.2.5
 of ECMA-262, restricted to radix 10 and to mathematical integers.

 `parseInt` is a prefix parser, not a validator: it skips leading white space,
 accepts one optional sign, and reads the longest run of decimal digits that
 follows. Whatever comes after that run is ignored, so "12abc" and "12.5"
 both give 12. The result is NaN (here `None`) exactly when that run is empty.
 */
module JsParseInt {
  import opened Wrappers

  /** StrWhiteSpaceChar of ECMA-262: the WhiteSpace code points (TAB, VT, FF,
      ZWNBSP and every code point of Unicode category Zs) and the
      LineTerminator code points (LF, CR, LS, PS). */
  predicate IsWhitespace(c: char) {
    || c == '\t' || c == '\U{000B}' || c == '\U{000C}' || c == '\U{FEFF}'
    || c == ' ' || c == '\U{00A0}' || c == '\U{1680}'
    || ('\U{2000}' <= c <= '\U{200A}')
    || c == '\U{202F}' || c == '\U{205F}' || c == '\U{3000}'
    || c == '\n' || c == '\r' || c == '\U{2028}' || c == '\U{2029}'
  }

  /** A radix-10 digit: only the ASCII digits count. */
  predicate IsDigit(c: char) {
    '0' <= c <= '9'
  }

  function DigitValue(c: char): (v: nat)
    requires IsDigit(c)
    ensures v < 10
  {
    (c - '0') as nat
  }

  predicate AllWhitespace(s: string) {
    forall i :: 0 <= i < |s| ==> IsWhitespace(s[i])
  }

  predicate AllDigits(s: string) {
    forall i :: 0 <= i < |s| ==> IsDigit(s[i])
  }

  predicate StartsWithDigit(t: string) {
    |t| > 0 && IsDigit(t[0])
  }

  predicate StartsWithWhitespace(t: string) {
    |t| > 0 && IsWhitespace(t[0])
  }

  predicate StartsWithSign(t: string) {
    |t| > 0 && (t[0] == '+' || t[0] == '-')
  }

  /** The sign prefixes `parseInt` accepts: none, "+" or "-". */
  predicate IsSign(sg: string) {
    sg == "" || sg == "+" || sg == "-"
  }

  /** The value `v` carries after the sign `sg`. */
  function Signed(sg: string, v: nat): int {
    if sg == "-" then -(v as int) else v
  }

  /** The value of a digit string read most significant digit first. */
  function DigitsValue(d: string): nat
    requires AllDigits(d)
  {
    if |d| == 0 then 0 else DigitsValue(d[..|d| - 1]) * 10 + DigitValue(d[|d| - 1])
  }

  /** Step 2 of the algorithm: the text with its leading white space removed. */
  function TrimStart(s: string): (t: string)
    ensures |t| <= |s|
  {
    if |s| > 0 && IsWhitespace(s[0]) then TrimStart(s[1..]) else s
  }

  /** Steps 11 and 12 of the algorithm: the longest prefix of decimal digits. */
  function DigitPrefix(s: string): (d: string)
    ensures AllDigits(d)
  {
    if |s| > 0 && IsDigit(s[0]) then [s[0]] + DigitPrefix(s[1..]) else ""
  }

  /** Steps 3 to 5 of the algorithm: the first character of `w` when it is
      "+" or "-", and nothing otherwise. */
  function SignPrefix(w: string): (sg: string)
    ensures IsSign(sg)
    ensures |sg| <= |w| && sg == w[..|sg|]
  {
    if |w| > 0 && (w[0] == '-' || w[0] == '+') then w[..1] else ""
  }

  /** Steps 13, 14 and 16 of the algorithm: the signed value of the digit
      prefix of `body`; None when it is empty. */
  function Numeral(sg: string, body: string): Option<int> {
    var d := DigitPrefix(body);
    if d == [] then None else Some(Signed(sg, DigitsValue(d)))
  }

  /** `parseInt(s, 10)`: None stands for NaN. */
  function ParseInt(s: string): Option<int> {
    var w := TrimStart(s);
    var sg := SignPrefix(w);
    Numeral(sg, w[|sg|..])
  }

  /** The shape of a parsable text: white space, an optional sign, a non-empty
      maximal run of digits, and anything not starting with a digit. */
  predicate NumeralShape(w: string, sg: string, d: string, rest: string) {
    && AllWhitespace(w)
    && IsSign(sg)
    && |d| > 0
    && AllDigits(d)
    && !StartsWithDigit(rest)
  }

  lemma Concat4(a: string, b: string, c: string, e: string)
    ensures a + b + c + e == a + (b + (c + e))
  {
  }

  /** White space followed by a non-white-space character is trimmed exactly. */
  lemma {:induction false} TrimStartOf(w: string, t: string)
    requires AllWhitespace(w)
    requires !StartsWithWhitespace(t)
    ensures TrimStart(w + t) == t
  {
    if |w| == 0 {
      assert w + t == t;
    } else {
      assert (w + t)[0] == w[0];
      assert (w + t)[1..] == w[1..] + t;
      TrimStartOf(w[1..], t);
    }
  }

  /** Every text is some white space followed by its trimmed part. */
  lemma {:induction false} TrimStartSplit(s: string) returns (w: string)
    ensures AllWhitespace(w)
    ensures s == w + TrimStart(s)
    ensures !StartsWithWhitespace(TrimStart(s))
  {
    if |s| > 0 && IsWhitespace(s[0]) {
      var w' := TrimStartSplit(s[1..]);
      w := [s[0]] + w';
      assert s == [s[0]] + s[1..];
    } else {
      w := "";
      assert s == "" + s;
    }
  }

  /** A digit run followed by a non-digit is read exactly. */
  lemma {:induction false} DigitPrefixOf(d: string, t: string)
    requires AllDigits(d)
    requires !StartsWithDigit(t)
    ensures DigitPrefix(d + t) == d
  {
    if |d| == 0 {
      assert d + t == t;
    } else {
      assert (d + t)[0] == d[0];
      assert (d + t)[1..] == d[1..] + t;
      DigitPrefixOf(d[1..], t);
      assert d == [d[0]] + d[1..];
    }
  }

  /** Every text is its digit prefix followed by a part not starting with a digit. */
  lemma {:induction false} DigitPrefixSplit(s: string) returns (rest: string)
    ensures s == DigitPrefix(s) + rest
    ensures !StartsWithDigit(rest)
  {
    if |s| > 0 && IsDigit(s[0]) {
      rest := DigitPrefixSplit(s[1..]);
      assert s == [s[0]] + s[1..];
    } else {
      rest := s;
      assert s == "" + s;
    }
  }

  lemma SignPrefixOf(sg: string, body: string)
    requires IsSign(sg)
    requires sg == "" ==> !StartsWithSign(body)
    ensures SignPrefix(sg + body) == sg
    ensures (sg + body)[|sg|..] == body
  {
    if sg != "" {
      assert (sg + body)[0] == sg[0];
      assert (sg + body)[..1] == sg;
    } else {
      assert sg + body == body;
    }
  }

  /** Every text of numeral shape parses to its signed digit value, whatever
      follows the digits. */
  lemma ParseIntOfShape(w: string, sg: string, d: string, rest: string)
    requires NumeralShape(w, sg, d, rest)
    ensures ParseInt(w + sg + d + rest) == Some(Signed(sg, DigitsValue(d)))
  {
    var body := d + rest;
    var t := sg + body;
    Concat4(w, sg, d, rest);
    assert body[0] == d[0];
    assert t[0] == if sg == "" then d[0] else sg[0];
    TrimStartOf(w, t);
    SignPrefixOf(sg, body);
    DigitPrefixOf(d, rest);
  }

  /** Conversely, every text that parses has numeral shape, and its value is
      the signed value of that shape's digit run. */
  lemma ParseIntDecompose(s: string) returns (w: string, sg: string, d: string, rest: string)
    requires ParseInt(s).Some?
    ensures NumeralShape(w, sg, d, rest)
    ensures s == w + sg + d + rest
    ensures ParseInt(s) == Some(Signed(sg, DigitsValue(d)))
  {
    var t := TrimStart(s);
    w := TrimStartSplit(s);
    sg := SignPrefix(t);
    var body := t[|sg|..];
    assert t == sg + body;
    d := DigitPrefix(body);
    rest := DigitPrefixSplit(body);
    Concat4(w, sg, d, rest);
  }

  /** A text gives NaN when, after its white space and an optional sign,
      no digit follows. */
  lemma ParseIntNaN(w: string, sg: string, rest: string)
    requires AllWhitespace(w)
    requires IsSign(sg)
    requires !StartsWithDigit(rest)
    requires sg == "" ==> !StartsWithWhitespace(rest) && !StartsWithSign(rest)
    ensures ParseInt(w + sg + rest) == None
  {
    var t := sg + rest;
    assert w + sg + rest == w + t;
    if t != [] {
      assert t[0] == if sg == "" then rest[0] else sg[0];
    }
    TrimStartOf(w, t);
    SignPrefixOf(sg, rest);
    DigitPrefixOf([], rest);
    assert [] + rest == rest;
  }

  /** Step 2 of the algorithm as a loop: the index of the first character
      that is not white space. */
  method SkipWhitespace(s: string) returns (i: nat)
    ensures i <= |s|
    ensures s[i..] == TrimStart(s)
  {
    i := 0;
    while i < |s| && IsWhitespace(s[i])
      invariant i <= |s|
      invariant TrimStart(s[i..]) == TrimStart(s)
    {
      assert s[i..][1..] == s[i + 1..];
      i := i + 1;
    }
  }

  /** Appending a digit shifts the value one decimal place. */
  lemma DigitsValueSnoc(d: string, c: char)
    requires AllDigits(d) && IsDigit(c)
    ensures AllDigits(d + [c])
    ensures DigitsValue(d + [c]) == DigitsValue(d) * 10 + DigitValue(c)
  {
    assert (d + [c])[..|d|] == d;
  }

  /** One more digit read: the run read so far grows by that digit, and its
      value by one decimal place. */
  lemma ReadDigitsStep(s: string, start: nat, i: nat)
    requires start <= i < |s| && IsDigit(s[i])
    requires AllDigits(s[start..i])
    requires DigitPrefix(s[start..]) == s[start..i] + DigitPrefix(s[i..])
    ensures AllDigits(s[start..i + 1])
    ensures DigitPrefix(s[start..]) == s[start..i + 1] + DigitPrefix(s[i + 1..])
    ensures DigitsValue(s[start..i + 1]) == DigitsValue(s[start..i]) * 10 + DigitValue(s[i])
  {
    assert s[i..][1..] == s[i + 1..];
    assert DigitPrefix(s[i..]) == [s[i]] + DigitPrefix(s[i + 1..]);
    assert s[start..i + 1] == s[start..i] + [s[i]];
    assert (s[start..i] + [s[i]]) + DigitPrefix(s[i + 1..])
        == s[start..i] + ([s[i]] + DigitPrefix(s[i + 1..]));
    DigitsValueSnoc(s[start..i], s[i]);
  }

  /** Steps 11 to 14 of the algorithm as a loop: from `start`, read the
      longest digit run and accumulate its value. */
  method ReadDigits(s: string, start: nat) returns (i: nat, v: nat)
    requires start <= |s|
    ensures start <= i <= |s|
    ensures s[start..i] == DigitPrefix(s[start..])
    ensures v == DigitsValue(DigitPrefix(s[start..]))
  {
    i := start;
    v := 0;
    while i < |s| && IsDigit(s[i])
      invariant start <= i <= |s|
      invariant AllDigits(s[start..i])
      invariant DigitPrefix(s[start..]) == s[start..i] + DigitPrefix(s[i..])
      invariant v == DigitsValue(s[start..i])
    {
      ReadDigitsStep(s, start, i);
      v := v * 10 + DigitValue(s[i]);
      i := i + 1;
    }
    assert DigitPrefix(s[start..]) == s[start..i] + "";
  }

  /** The algorithm of section 19.2.5 of ECMA-262 written as the loops an
      engine runs: trim, read the sign, accumulate digits. */
  method ParseIntScan(s: string) returns (r: Option<int>)
    ensures r == ParseInt(s)
  {
    var i := SkipWhitespace(s);
    ghost var w := s[i..];
    var negative := false;
    if i < |s| && s[i] == '-' {
      negative := true;
      i := i + 1;
    } else if i < |s| && s[i] == '+' {
      i := i + 1;
    }
    ghost var sg := SignPrefix(w);
    assert s[i..] == w[|sg|..];
    assert negative <==> sg == "-";
    var start := i;
    var v;
    i, v := ReadDigits(s, start);
    if i == start {
      r := None;
    } else if negative {
      r := Some(-(v as int));
    } else {
      r := Some(v);
    }
  }
}

=== FILE: scenarios.dfy ===
/**
 Concrete inputs: what `parseInt` makes of typical field contents, and one
 complete play-through with a fixed target.
 */
module Scenarios {
  import opened Wrappers
  import opened JsParseInt
  import opened NumberText
  import opened Messages
  import opened GuessingGame

  /** `parseInt` of a numeral with nothing after it. */
  lemma ParseIntOfPlainNumeral(n: nat)
    ensures ParseInt(NatToDecimal(n)) == Some(n)
  {
    ParseIntOfNumeral(n, "");
    assert NatToDecimal(n) + "" == NatToDecimal(n);
  }

  /** Trailing text after the digits is ignored. */
  lemma ParseIntTrailingExample()
    ensures ParseInt("12abc") == Some(12)
  {
    assert DigitsValue("12") == 12 by {
      assert "12"[..1] == "1";
    }
    assert !IsDigit('a');
    ParseIntOfShape("", "", "12", "abc");
    Concat4("", "", "12", "abc");
    assert "12" + "abc" == "12abc";
  }

  /** A decimal point ends the digit run: "12.5.3" is 12, not NaN. */
  lemma ParseIntDecimalPointExample()
    ensures ParseInt("12.5.3") == Some(12)
  {
    assert DigitsValue("12") == 12 by {
      assert "12"[..1] == "1";
    }
    ParseIntOfShape("", "", "12", ".5.3");
    assert "" + "" + "12" + ".5.3" == "12.5.3";
  }

  /** Radix 10 reads no hexadecimal prefix. */
  lemma ParseIntHexPrefixExample()
    ensures ParseInt("0x1A") == Some(0)
  {
    ParseIntOfShape("", "", "0", "x1A");
    assert "" + "" + "0" + "x1A" == "0x1A";
  }

  /** Radix 10 reads no exponent. */
  lemma ParseIntExponentExample()
    ensures ParseInt("1e3") == Some(1)
  {
    ParseIntOfShape("", "", "1", "e3");
    assert "" + "" + "1" + "e3" == "1e3";
  }

  /** Radix 10 reads no hexadecimal prefix and no exponent. */
  lemma ParseIntPrefixLetterExamples()
    ensures ParseInt("0x1A") == Some(0)
    ensures ParseInt("1e3") == Some(1)
  {
    ParseIntHexPrefixExample();
    ParseIntExponentExample();
  }

  /** White space and a minus sign before the digits are read. */
  lemma ParseIntSignedExample()
    ensures ParseInt(" \t-7px") == Some(-7)
  {
    assert DigitsValue("7") == 7;
    ParseIntOfShape(" \t", "-", "7", "px");
    assert " \t" + "-" + "7" + "px" == " \t-7px";
  }

  /** The empty text and a text of letters: NaN. */
  lemma ParseIntNoDigitExamples()
    ensures ParseInt("") == None
    ensures ParseInt("abc") == None
  {
    ParseIntNaN("", "", "");
    assert "" + "" + "" == "";
    ParseIntNaN("", "", "abc");
    assert "" + "" + "abc" == "abc";
  }

  /** A sign with no digit after it: NaN. */
  lemma ParseIntSignOnlyExamples()
    ensures ParseInt("-") == None
    ensures ParseInt("+-3") == None
  {
    ParseIntNaN("", "-", "");
    assert "" + "-" + "" == "-";
    ParseIntNaN("", "+", "-3");
    assert "" + "+" + "-3" == "+-3";
  }

  /** No digit after the white space and the sign: NaN. */
  lemma ParseIntNaNExamples()
    ensures ParseInt("") == None
    ensures ParseInt("abc") == None
    ensures ParseInt("-") == None
    ensures ParseInt("+-3") == None
  {
    ParseIntNoDigitExamples();
    ParseIntSignOnlyExamples();
  }

  /** A guess typed and submitted: the digits of `n` typed, then the submit. */
  lemma TypeAndSubmit(g: Game, n: nat)
    ensures Run(g, [Typed(NatToDecimal(n)), Guessed]) == Submit(g.(guess := NatToDecimal(n)))
    ensures ParseInt(NatToDecimal(n)) == Some(n)
  {
    var d := NatToDecimal(n);
    ParseIntOfPlainNumeral(n);
    var es := [Typed(d), Guessed];
    assert es[1..] == [Guessed];
    assert Run(g, es) == Run(InputChange(g, d), [Guessed]);
    assert [Guessed][1..] == [];
    assert Run(InputChange(g, d), [Guessed]) == Run(Submit(InputChange(g, d)), []);
  }

  /** A reset to target 42, then the first guess 10: too low, one attempt. */
  lemma PlayThroughFirstGuess(g: Game)
    ensures Run(Reset(g, 42), [Typed("10"), Guessed]) == Game(42, "", TooLow, 1)
  {
    assert NatToDecimal(10) == "10";
    TypeAndSubmit(Reset(g, 42), 10);
  }

  /** Then 70: too high, two attempts. */
  lemma PlayThroughSecondGuess()
    ensures Run(Game(42, "", TooLow, 1), [Typed("70"), Guessed]) == Game(42, "", TooHigh, 2)
  {
    assert NatToDecimal(70) == "70";
    TypeAndSubmit(Game(42, "", TooLow, 1), 70);
  }

  /** Then 42: the correct message reporting three attempts. */
  lemma PlayThroughThirdGuess()
    ensures Run(Game(42, "", TooHigh, 2), [Typed("42"), Guessed]) == Game(42, "", Correct(3), 3)
  {
    assert NatToDecimal(42) == "42";
    TypeAndSubmit(Game(42, "", TooHigh, 2), 42);
  }

  /** The whole play-through as one run: a reset to 42, then the guesses
      10, 70 and 42, ending with the correct message for three attempts. */
  lemma PlayThrough(g: Game)
    ensures Run(Reset(g, 42), [Typed("10"), Guessed, Typed("70"), Guessed, Typed("42"), Guessed])
            == Game(42, "", Correct(3), 3)
  {
    var a, b, c := [Typed("10"), Guessed], [Typed("70"), Guessed], [Typed("42"), Guessed];
    assert a + b + c == [Typed("10"), Guessed, Typed("70"), Guessed, Typed("42"), Guessed];
    RunAppend(Reset(g, 42), a, b);
    RunAppend(Reset(g, 42), a + b, c);
    PlayThroughFirstGuess(g);
    PlayThroughSecondGuess();
    PlayThroughThirdGuess();
  }

  /** The text shown for three attempts. */
  lemma CorrectTextExample()
    ensures Render(Correct(3)) == "Correct! You guessed it in 3 attempts."
  {
    assert NatToDecimal(3) == "3";
  }
}

=== FILE: wrappers.dfy ===
/** An optional result. */
module Wrappers {

  /** Some(value) when there is a result, None when there is not
      (the model of a JavaScript NaN from a failed parse). */
  datatype Option<+T> = None | Some(value: T)
}
